=== FILE: README.md ===
# Staking message admission checks

A Dafny model of the stateless admission checks (`ValidateBasic`) of the six
transaction messages of the Cosmos SDK staking module, as forked by Greenfield:
`MsgCreateValidator`, `MsgEditValidator`, `MsgDelegate`, `MsgBeginRedelegate`,
`MsgUndelegate` and `MsgUpdateParams`. It also models the value-object checks these
messages rely on: the commission-rate triple, the global staking `Params`, coins and
denominations, and the hex-encoded BLS key of a validator. Finally it models the
signer rule of `MsgUpdateParams`.

Each behaviour is cited against the test tables of `x/staking/types/msg_test.go`.
Each row of the `MsgCreateValidator`, `MsgEditValidator` and `MsgUpdateParams` tables
is a lemma of its own in `msg_tables.dfy`. The rows of the `MsgDelegate`,
`MsgBeginRedelegate` and `MsgUndelegate` tables are grouped into one lemma per table,
with one `ensures` per row. The shared fixtures are parameters of the lemmas, so each
row is proved for every choice of them: the addresses `valAddr1..3`, the key `pk1`,
and the freshly generated BLS key.

Layout:

- `wrappers.dfy` (`Wrappers`): `Option` and `Result`.
- `hex.dfy` (`Hex`): hexadecimal text as Go's `encoding/hex` writes and reads it, with
  the round-trip proof.
- `values.dfy` (`Values`): the value objects.
  - Addresses and keys are `seq<bv8>`.
  - `math.Int` is `Option<int>`, where `None` is the nil Int, distinct from zero.
  - `LegacyDec` is an integer scaled by 10^18.
  - Also here: coins, denominations, descriptions and the BLS key rule.
- `commission.dfy` (`Commission`): `CommissionRates` and its check.
- `params.dfy` (`StakingParams`): `Params`, the defaults, the check and its error texts.
  - A `time.Duration` is a signed 64-bit count of nanoseconds.
- `msgs.dfy` (`Msgs`): the six messages, their constructors, their `ValidateBasic`,
  and `MsgUpdateParams.GetSigners`.
- `msg_tables.dfy` (`MsgTables`): the test-table lemmas.
- `msg_properties.dfy` (`MsgProperties`): general properties of the checks.

The six message checks return a `Result<(), ValidationError>`. The commission check
and the params check return their own error types, `CommissionError` and
`ParamsError`. Each message check's contract states acceptance as an if-and-only-if
against an independent conjunction of the rules. It also states that any reported
error names a rule the message really breaks. These are the `...Breaks` predicates of
`msgs.dfy`, and `Commission.Violates` and `StakingParams.Violates` for the value
objects. For `Params` the contract adds that the reported clause is the first broken
one in checking order.

The checks are pure functions, so calling one twice on the same message gives the same
verdict by construction.

Decisions fixed by the test lines:

- An edit with an all-empty description is rejected (msg_test.go:124).
- Constructors are total: every row is built without error, and rejection happens only
  in `ValidateBasic` (msg_test.go:105).
- An absent coin (`Coin{}`, msg_test.go:89) is distinct from a zero coin
  (msg_test.go:88), and both are rejected.

Decisions no test line fixes:

- Parameters are checked in this order: unbonding time, max validators, max entries,
  minimum commission rate, bond denomination. No row fixes the order, since each
  failing row at msg_test.go:253-364 breaks exactly one clause.
- A new validator with an all-empty description is rejected. The "empty description"
  row (msg_test.go:85) also carries an out-of-range commission, so it does not decide
  this on its own; both rules are modelled, and
  `MsgTables.CreateEachDefectRejectsAlone` shows that each defect rejects alone.
- The order in which each message reports a broken rule:
  - `MsgCreateValidator`: addresses, the key, the amount, the description, the
    commission, the minimum self delegation, the bond against that minimum, the BLS
    key.
  - `MsgEditValidator`: the validator address, the description, the minimum self
    delegation, then the commission rate.
  - `MsgDelegate`, `MsgUndelegate`: delegator, validator, then the amount.
  - `MsgBeginRedelegate`: delegator, source validator, destination validator, then the
    amount.
- `MsgUpdateParams.GetSigners` returns the governance module address whatever the
  `authority` field holds. msg_test.go:229-234 builds only a message whose authority
  is the governance module's own, so it does not tell this apart from signers taken
  from the decoded `authority` field.
- The denomination rule follows the SDK's `ValidateDenom` pattern: a letter, then 2 to
  127 letters, digits or `/:._-`. Coins and the bond denomination both use it. The
  tests use only the denominations "stake" (msg_test.go:26), "denom" (msg_test.go:263)
  and "" (msg_test.go:343). So they do not pin down the rule beyond those three.

## Model

| member | source | states |
|---|---|---|
| Hex.Encode | x/staking/types/msg_test.go:95-96 | hex-encoding a key gives two hex digits per byte |
| Hex.Decode | x/staking/types/msg_test.go:95-96 | a string decodes iff its length is even and every character is a hex digit of either case; the result is half as long |
| Hex.DecodeEncode | x/staking/types/msg_test.go:95-96 | decoding the hex text of any byte string gives back the same bytes |
| Values.NewDec | x/staking/types/msg_test.go:72 | `LegacyNewDec(n)` is the decimal with integer value n and no fractional part |
| Values.ValidDenom | x/staking/types/msg_test.go:26 | a well-formed denomination is 3 to 128 denomination characters and is never blank |
| Values.IsValidCoin | x/staking/types/msg_test.go:88-89 | a valid coin has a present, non-negative amount; `Coin{}` is never valid, and a zero coin of a well-formed denomination is |
| Values.IsPositiveCoin | x/staking/types/msg_test.go:26-27 | a coin counts as an amount iff its denomination is well-formed and its amount is present and positive; the zero coin and `Coin{}` never do |
| Values.IsBlank | x/staking/types/msg_test.go:343-347 | a string is blank iff Go's `strings.TrimSpace` leaves nothing of it, which is what rejects the empty bond denomination of this row |
| Values.NewInt64Coin | x/staking/types/msg_test.go:26-27 | building a coin needs a well-formed denomination and a non-negative amount; the coin it builds is always valid, and it is a positive amount iff n > 0, so coinPos is one and coinZero is not |
| Values.DefaultBondDenomValid | x/staking/types/msg_test.go:26 | the default bond denomination is a well-formed denomination |
| Values.IsValidBlsKey | x/staking/types/msg_test.go:95-96 | a BLS key string is accepted iff it is exactly 96 hex digits, that is, 48 bytes |
| Values.EncodedBlsKeyValid | x/staking/types/msg_test.go:95-103 | the hex text of any 48-byte BLS public key is accepted, so the generated key is valid in every row |
| Commission.Validate | x/staking/types/msg_test.go:71-72 | a commission triple is accepted iff 0 <= rate <= maxRate <= 1 and 0 <= maxChangeRate <= maxRate; a rejection names a broken clause |
| Commission.AnyViolationRejects | x/staking/types/msg_test.go:85-89 | breaking any one clause rejects the whole triple |
| StakingParams.Validate | x/staking/types/msg_test.go:253-348 | params are accepted iff unbonding time > 0, max validators > 0, max entries > 0, min commission in [0, 1] and the bond denom is well-formed; a rejection names the first broken clause in checking order |
| StakingParams.DefaultParams | x/staking/types/msg_test.go:229-232 | the default parameters are well-formed, bond in "stake" and have a zero minimum commission |
| StakingParams.Message | x/staking/types/msg_test.go:267-347 | each parameter clause's error text starts with the phrase the tests look for, such as "max entries must be positive:" |
| StakingParams.MessagesDistinct | x/staking/types/msg_test.go:367-372 | different parameter clauses have different error texts, so the text identifies the clause |
| StakingParams.DefaultParamsValid | x/staking/types/msg_test.go:244-252 | the default parameters pass the check |
| Msgs.ValidateCreateValidator | x/staking/types/msg_test.go:69-112 | a new validator is admitted iff all of these hold: five non-empty addresses, a public key, a positive bond of a well-formed denomination, a non-empty description, a consistent commission, and 0 < min self delegation <= bond; plus a 48-byte hex BLS key. A rejection names a rule that is broken |
| Msgs.NewMsgCreateValidator | x/staking/types/msg_test.go:98-105 | building a new-validator message records every argument unchanged and rejects nothing, so every row is constructed |
| Msgs.ValidateEditValidator | x/staking/types/msg_test.go:114-145 | an edit is admitted iff the address is non-empty and the description is not all-empty; a present min self delegation must be positive and a present rate must lie in [0, 1]. A rejection names a rule that is broken |
| Msgs.NewMsgEditValidator | x/staking/types/msg_test.go:136-138 | building an edit records every argument unchanged, the optional rate and min self delegation included, and rejects nothing |
| Msgs.ValidateTransfer | x/staking/types/msg_test.go:156-161 | a delegation-shaped message is admitted iff both addresses are non-empty and the coin has a well-formed denomination and a present, positive amount; a rejection names a rule that is broken |
| Msgs.ValidateDelegate | x/staking/types/msg_test.go:147-172 | a delegation is admitted iff delegator and validator are non-empty and the amount has a well-formed denomination and is present and positive; delegator == validator is allowed. A rejection names a rule that is broken |
| Msgs.ValidateBeginRedelegate | x/staking/types/msg_test.go:174-200 | a redelegation is admitted iff delegator, source and destination are non-empty and the amount has a well-formed denomination and is present and positive. A rejection names a rule that is broken |
| Msgs.ValidateUndelegate | x/staking/types/msg_test.go:202-226 | an undelegation is admitted iff delegator and validator are non-empty and the amount has a well-formed denomination and is present and positive. A rejection names a rule that is broken |
| Msgs.UpdateParamsSigners | x/staking/types/msg_test.go:228-235 | the signers of a params update are exactly the governance module address, once, whatever its `authority` field holds (the tests show only the governance authority) |
| Msgs.ValidateUpdateParams | x/staking/types/msg_test.go:237-376 | a params update is admitted iff the authority is the governance module and the params pass their check; any other authority gets the authority error whatever the params |
| Msgs.UpdateParamsErrorText | x/staking/types/msg_test.go:367-372 | the text of an authority error starts with "invalid authority address"; the text of a params error starts with that clause's phrase |
| MsgTables.CoinPosPositive | x/staking/types/msg_test.go:25-28 | the 1000-stake coin and the 1-stake coin are positive amounts |
| MsgTables.Commission2Rejected | x/staking/types/msg_test.go:72 | the commission (5, 5, 5) is rejected because its max rate exceeds 1 |
| MsgTables.CreateBasicGood | x/staking/types/msg_test.go:83 | row "basic good" is admitted |
| MsgTables.CreatePartialDescription | x/staking/types/msg_test.go:84 | row "partial description" is admitted |
| MsgTables.CreateEmptyDescription | x/staking/types/msg_test.go:85 | row "empty description" is rejected |
| MsgTables.CreateEmptyAddress | x/staking/types/msg_test.go:86 | row "empty address" is rejected for its validator address |
| MsgTables.CreateEmptyPubkey | x/staking/types/msg_test.go:87 | row "empty pubkey" is rejected for its missing key, all else being valid |
| MsgTables.CreateEmptyBond | x/staking/types/msg_test.go:88 | row "empty bond" is rejected for its zero amount |
| MsgTables.CreateNilBond | x/staking/types/msg_test.go:89 | row "nil bond" is rejected for its absent amount |
| MsgTables.CreateZeroMinSelfDelegation | x/staking/types/msg_test.go:90 | row "zero min self delegation" is rejected for that clause |
| MsgTables.CreateNegativeMinSelfDelegation | x/staking/types/msg_test.go:91 | row "negative min self delegation" is rejected for that clause |
| MsgTables.CreateDelegationBelowMinSelfDelegation | x/staking/types/msg_test.go:92 | row "delegation less than min self delegation" (1001 > 1000) is rejected for that clause |
| MsgTables.CreateEachDefectRejectsAlone | x/staking/types/msg_test.go:85 | the empty description and the (5, 5, 5) commission of row "empty description" each reject on their own |
| MsgTables.EditBasicGood | x/staking/types/msg_test.go:122 | row "basic good" is admitted |
| MsgTables.EditPartialDescription | x/staking/types/msg_test.go:123 | row "partial description" is admitted |
| MsgTables.EditEmptyDescription | x/staking/types/msg_test.go:124 | row "empty description" is rejected although every other field is valid |
| MsgTables.EditEmptyAddress | x/staking/types/msg_test.go:125 | row "empty address" is rejected for its address |
| MsgTables.EditNilInt | x/staking/types/msg_test.go:126 | row "nil int" is rejected |
| MsgTables.DelegateRows | x/staking/types/msg_test.go:156-161 | the six delegation rows get their expected verdicts, self bond included |
| MsgTables.BeginRedelegateRows | x/staking/types/msg_test.go:184-189 | the six redelegation rows get their expected verdicts |
| MsgTables.UndelegateRows | x/staking/types/msg_test.go:211-215 | the five undelegation rows get their expected verdicts |
| MsgTables.UpdateParamsSignersAreGov | x/staking/types/msg_test.go:229-234 | the update built with the governance authority and default params is signed by the governance module alone |
| MsgTables.UpdateParamsValidMsg | x/staking/types/msg_test.go:244-252 | row "valid msg" is admitted |
| MsgTables.UpdateParamsNegativeUnbondingTime | x/staking/types/msg_test.go:253-268 | a negative unbonding time is refused with "unbonding time must be positive:" |
| MsgTables.UpdateParamsZeroMaxValidators | x/staking/types/msg_test.go:269-284 | zero max validators is refused with "max validators must be positive:" |
| MsgTables.UpdateParamsZeroMaxEntries | x/staking/types/msg_test.go:285-300 | zero max entries is refused with "max entries must be positive:" |
| MsgTables.UpdateParamsNegativeCommissionRate | x/staking/types/msg_test.go:301-316 | a min commission of -1 is refused with "minimum commission rate cannot be negative:" |
| MsgTables.UpdateParamsCommissionRateAboveOne | x/staking/types/msg_test.go:317-332 | a min commission of 2 is refused with a text containing "minimum commission rate cannot be greater than 100" |
| MsgTables.UpdateParamsBlankBondDenom | x/staking/types/msg_test.go:333-348 | a blank bond denom is refused with "bond denom cannot be blank" |
| MsgTables.UpdateParamsInvalidAuthority | x/staking/types/msg_test.go:349-364 | authority "invalid" with valid params is refused with "invalid authority address" |
| MsgProperties.MinSelfDelegationWindow | x/staking/types/msg_test.go:90-92 | with all else valid, a validator is admitted iff 0 < min self delegation <= bond |
| MsgProperties.LargerBondStaysAdmissible | x/staking/types/msg_test.go:92 | raising the bond of an admissible validator keeps it admissible |
| MsgProperties.NilMinSelfDelegationRejected | x/staking/types/msg_test.go:90-91 | a nil min self delegation in a new validator is rejected, like the zero and negative ones of these rows |

## Left out

- Protobuf `Any` packing and the interface registry round trip (msg_test.go:30-67): the
  envelope format belongs to the codec library, which is not part of this model. A
  public key is an opaque record, and a nil key is `None`.
- BLS key generation (msg_test.go:46, 95, 133): this is randomness plus a foreign
  crypto library. The generated key is a parameter: any 48-byte string.
- Address parsing: hex or bech32 text, length and checksum. An address is a byte
  string, and only its emptiness is observed.
- The governance address is a stand-in constant. `authtypes.NewModuleAddress` hashes
  the module name, and that hash is not reproduced. The authority string is an opaque
  constant compared for equality.
- Description field length limits and the "do not modify" sentinel: no row exercises
  them.
- A `CommissionRates{}` of nil decimals cannot be expressed: a decimal is never nil in
  this model.
- Signer resolution of the five sender-signed messages: the tests exercise only
  `MsgUpdateParams`.
- StakingParams.Validate: leaves out the nil minimum commission rate, because a
  decimal is never nil in this model.
- Msgs.UpdateParamsSigners: does not decode the `authority` field into an address; the
  signer is the governance module constant for every message.
- Msgs.UpdateParamsErrorText: stops at the phrase. What the real authority error
  appends after it, the cause of the failed address decoding, is not modelled.
- Values.NewInt64Coin: the SDK panics on a negative amount or a malformed
  denomination; the model makes both preconditions instead of modelling the panic.
- StakingParams.Message: stops at the colon. The offending value that the real error
  text prints after it is not modelled.
- Values.IsSpace: covers Latin-1 white space only. Go's `unicode.IsSpace` also accepts
  some characters above U+00FF. Such a string fails the denomination rule anyway, so
  only the error text differs.
- Msgs.ValidateEditValidator: does not check the secondary addresses or the BLS key
  of an edit. An empty value there means "unchanged", and no row distinguishes
  further.
- Msgs.ValidateEditValidator: rejects a present but nil minimum self delegation as
  not positive. The only row with a nil Int (msg_test.go:126) also has an empty
  address, so the tests do not decide this case.
- Msgs.ValidateCreateValidator: rejects a nil minimum self delegation as not positive.
  No row carries one, so the tests do not decide this case.
- StakingParams.Message: identifies the clause through its leading phrase and through
  `StakingParams.MessagesDistinct`. It does not prove that no other clause's phrase
  occurs in a text.

=== FILE: commission.dfy ===
/** A validator's commission rates and the check that holds them consistent
    as one unit. */
module Commission {
  import opened Wrappers
  import opened Values

  /** The commission a validator charges, the most it may ever charge, and
      the most it may change it by per day, each a decimal fraction. */
  datatype CommissionRates = CommissionRates(rate: Dec, maxRate: Dec, maxChangeRate: Dec)

  function NewCommissionRates(rate: Dec, maxRate: Dec, maxChangeRate: Dec): CommissionRates {
    CommissionRates(rate, maxRate, maxChangeRate)
  }

  /** Which clause of the commission invariant a triple breaks. */
  datatype CommissionError =
    | NegativeMaxRate
    | MaxRateAboveOne
    | NegativeRate
    | RateAboveMaxRate
    | NegativeMaxChangeRate
    | MaxChangeRateAboveMaxRate

  /** The invariant: `0 <= rate <= maxRate <= 1` and
      `0 <= maxChangeRate <= maxRate`. */
  predicate Consistent(c: CommissionRates) {
    && 0 <= c.rate <= c.maxRate <= OneDec
    && 0 <= c.maxChangeRate <= c.maxRate
  }

  /** `c` breaks the clause that `e` reports. */
  predicate Violates(c: CommissionRates, e: CommissionError) {
    match e
    case NegativeMaxRate => c.maxRate < 0
    case MaxRateAboveOne => c.maxRate > OneDec
    case NegativeRate => c.rate < 0
    case RateAboveMaxRate => c.rate > c.maxRate
    case NegativeMaxChangeRate => c.maxChangeRate < 0
    case MaxChangeRateAboveMaxRate => c.maxChangeRate > c.maxRate
  }

  /** `CommissionRates.Validate`: the clauses are tested in turn and the first
      one broken is reported. */
  function Validate(c: CommissionRates): (r: Result<(), CommissionError>)
    ensures r.Success? <==> Consistent(c)
    ensures r.Failure? ==> Violates(c, r.error)
  {
    if c.maxRate < 0 then Failure(NegativeMaxRate)
    else if c.maxRate > OneDec then Failure(MaxRateAboveOne)
    else if c.rate < 0 then Failure(NegativeRate)
    else if c.rate > c.maxRate then Failure(RateAboveMaxRate)
    else if c.maxChangeRate < 0 then Failure(NegativeMaxChangeRate)
    else if c.maxChangeRate > c.maxRate then Failure(MaxChangeRateAboveMaxRate)
    else Success(())
  }

  /** Any broken clause makes the whole triple invalid. */
  lemma AnyViolationRejects(c: CommissionRates, e: CommissionError)
    requires Violates(c, e)
    ensures Validate(c).Failure?
  {
  }
}

=== FILE: hex.dfy ===
/** Hexadecimal text as Go's encoding/hex writes and reads it: `Encode` emits
    lower-case digits, `Decode` accepts either case and fails on an odd length
    or on a character that is not a hexadecimal digit. */
module Hex {
  import opened Wrappers

  /** The lower-case hexadecimal digit for a nibble. */
  function DigitChar(n: nat): char
    requires n < 16
  {
    if n < 10 then ('0' as int + n) as char else ('a' as int + n - 10) as char
  }

  /** The nibble a hexadecimal digit of either case stands for, or `None`. */
  function DigitValue(c: char): (r: Option<nat>)
    ensures r.Some? ==> r.value < 16
    ensures r.Some? <==> ('0' <= c <= '9' || 'a' <= c <= 'f' || 'A' <= c <= 'F')
  {
    if '0' <= c <= '9' then Some(c as int - '0' as int)
    else if 'a' <= c <= 'f' then Some(c as int - 'a' as int + 10)
    else if 'A' <= c <= 'F' then Some(c as int - 'A' as int + 10)
    else None
  }

  predicate IsDigit(c: char) {
    DigitValue(c).Some?
  }

  lemma DigitRoundTrip(n: nat)
    requires n < 16
    ensures DigitValue(DigitChar(n)) == Some(n)
  {
  }

  /** Two digits per byte, high nibble first. */
  function Encode(b: seq<bv8>): (s: string)
    ensures |s| == 2 * |b|
    ensures forall i :: 0 <= i < |s| ==> IsDigit(s[i])
  {
    if |b| == 0 then []
    else
      var hi := b[0] as int / 16;
      var lo := b[0] as int % 16;
      DigitRoundTrip(hi);
      DigitRoundTrip(lo);
      [DigitChar(hi), DigitChar(lo)] + Encode(b[1..])
  }

  /** The bytes a hexadecimal string spells, or `None` when it is malformed. */
  function Decode(s: string): (r: Option<seq<bv8>>)
    ensures r.Some? <==> |s| % 2 == 0 && forall i :: 0 <= i < |s| ==> IsDigit(s[i])
    ensures r.Some? ==> 2 * |r.value| == |s|
    decreases |s|
  {
    if |s| == 0 then Some([])
    else if |s| == 1 then None
    else
      var rest := Decode(s[2..]);
      assert forall i :: 2 <= i < |s| ==> s[i] == s[2..][i - 2];
      match (DigitValue(s[0]), DigitValue(s[1]), rest)
      case (Some(hi), Some(lo), Some(tail)) => Some([(hi * 16 + lo) as bv8] + tail)
      case _ => None
  }

  /** Decoding a digit pair in front of a decodable tail. */
  lemma DecodePair(s: string, hi: nat, lo: nat, tail: seq<bv8>)
    requires |s| >= 2
    requires DigitValue(s[0]) == Some(hi) && DigitValue(s[1]) == Some(lo)
    requires Decode(s[2..]) == Some(tail)
    ensures Decode(s) == Some([(hi * 16 + lo) as bv8] + tail)
  {
  }

  /** A byte is rebuilt from its high and low nibbles. */
  lemma Nibbles(x: bv8)
    ensures ((x as int / 16) * 16 + x as int % 16) as bv8 == x
  {
  }

  /** The first two digits of an encoding spell its first byte; the rest
      encodes the remaining bytes. */
  lemma EncodeFirst(b: seq<bv8>)
    requires |b| > 0
    ensures |Encode(b)| >= 2
    ensures Encode(b)[0] == DigitChar(b[0] as int / 16)
    ensures Encode(b)[1] == DigitChar(b[0] as int % 16)
    ensures Encode(b)[2..] == Encode(b[1..])
  {
    var hi, lo := b[0] as int / 16, b[0] as int % 16;
    assert Encode(b) == [DigitChar(hi), DigitChar(lo)] + Encode(b[1..]);
  }

  /** Decoding undoes encoding. */
  lemma {:induction false} DecodeEncode(b: seq<bv8>)
    ensures Decode(Encode(b)) == Some(b)
  {
    if |b| > 0 {
      var hi, lo := b[0] as int / 16, b[0] as int % 16;
      EncodeFirst(b);
      DigitRoundTrip(hi);
      DigitRoundTrip(lo);
      DecodeEncode(b[1..]);
      DecodePair(Encode(b), hi, lo, b[1..]);
      Nibbles(b[0]);
      assert [b[0]] + b[1..] == b;
    }
  }
}

=== FILE: msg_properties.dfy ===
/** General properties of the admission checks, beyond the individual rows
    of the test tables. */
module MsgProperties {
  import opened Wrappers
  import opened Values
  import StakingParams
  import opened Msgs

  /** With every other rule met, a new validator is admitted exactly when its
      minimum self delegation lies in `(0, bond]`: moving either side of that
      window flips the verdict. */
  lemma MinSelfDelegationWindow(m: MsgCreateValidator, k: int)
    requires CreateValidatorAdmissible(m)
    ensures ValidateCreateValidator(m.(minSelfDelegation := Some(k))).Success?
            <==> 0 < k <= m.value.amount.value
  {
  }

  /** Bonding more never turns an admissible validator into an inadmissible one. */
  lemma LargerBondStaysAdmissible(m: MsgCreateValidator, extra: nat)
    requires CreateValidatorAdmissible(m)
    ensures ValidateCreateValidator(m.(value := m.value.(amount := Some(m.value.amount.value + extra)))).Success?
  {
  }

  /** A nil minimum self delegation is never admitted, unlike an absent one
      in an edit. */
  lemma NilMinSelfDelegationRejected(m: MsgCreateValidator)
    requires m.minSelfDelegation.None?
    ensures ValidateCreateValidator(m).Failure?
  {
  }
}

=== FILE: msg_tables.dfy ===
/** The test tables of x/staking/types/msg_test.go: one lemma per row for the
    create, edit and update-params tables, one lemma per table for the
    delegate, redelegate and undelegate tables. The fixtures the tables share
    (two or three non-empty addresses, an ed25519 key, a freshly generated BLS
    key) are parameters, so each row is proved for every choice of them. */
module MsgTables {
  import opened Wrappers
  import opened Values
  import Hex
  import Commission
  import StakingParams
  import opened Msgs

  const CoinPos: Coin := NewInt64Coin(DefaultBondDenom, 1000)
  const CoinZero: Coin := NewInt64Coin(DefaultBondDenom, 0)
  const CoinOne: Coin := NewInt64Coin(DefaultBondDenom, 1)

  const Commission1: Commission.CommissionRates := Commission.NewCommissionRates(0, 0, 0)
  const Commission2: Commission.CommissionRates :=
    Commission.NewCommissionRates(NewDec(5), NewDec(5), NewDec(5))

  const EmptyAddr: Address := []

  /** The fixtures every validator row draws on. */
  predicate Fixtures(valAddr: Address, blsPk: seq<bv8>) {
    |valAddr| > 0 && |blsPk| == BlsPubKeyLength
  }

  lemma CoinPosPositive()
    ensures IsPositiveCoin(CoinPos) && IsPositiveCoin(CoinOne)
    ensures CoinPos.amount == Some(1000)
  {
  }

  lemma Commission2Rejected()
    ensures Commission.Validate(Commission2) == Failure(Commission.MaxRateAboveOne)
  {
  }

  // ---- TestMsgCreateValidator ------------------------------------------------

  /** The message one row of the table builds: the row's address fills all
      five address roles. */
  function CreateRow(moniker: string, identity: string, website: string, securityContact: string,
                     details: string, commission: Commission.CommissionRates, minSelfDelegation: MathInt,
                     validatorAddr: Address, pubkey: Option<PubKey>, bond: Coin, blsPk: seq<bv8>): MsgCreateValidator
  {
    NewMsgCreateValidator(
      validatorAddr, pubkey, bond, NewDescription(moniker, identity, website, securityContact, details),
      commission, minSelfDelegation, validatorAddr, validatorAddr, validatorAddr, validatorAddr,
      Hex.Encode(blsPk))
  }

  lemma CreateBasicGood(valAddr1: Address, pk1: PubKey, blsPk: seq<bv8>)
    requires Fixtures(valAddr1, blsPk)
    ensures ValidateCreateValidator(
      CreateRow("a", "b", "c", "d", "e", Commission1, Some(1), valAddr1, Some(pk1), CoinPos, blsPk)).Success?
  {
  }

  lemma CreatePartialDescription(valAddr1: Address, pk1: PubKey, blsPk: seq<bv8>)
    requires Fixtures(valAddr1, blsPk)
    ensures ValidateCreateValidator(
      CreateRow("", "", "c", "", "", Commission1, Some(1), valAddr1, Some(pk1), CoinPos, blsPk)).Success?
  {
  }

  lemma CreateEmptyDescription(valAddr1: Address, pk1: PubKey, blsPk: seq<bv8>)
    requires Fixtures(valAddr1, blsPk)
    ensures ValidateCreateValidator(
      CreateRow("", "", "", "", "", Commission2, Some(1), valAddr1, Some(pk1), CoinPos, blsPk)).Failure?
  {
  }

  lemma CreateEmptyAddress(pk1: PubKey, blsPk: seq<bv8>)
    ensures ValidateCreateValidator(
      CreateRow("a", "b", "c", "d", "e", Commission2, Some(1), EmptyAddr, Some(pk1), CoinPos, blsPk))
      == Failure(InvalidAddress(ValidatorRole))
  {
  }

  lemma CreateEmptyPubkey(valAddr1: Address, blsPk: seq<bv8>)
    requires Fixtures(valAddr1, blsPk)
    ensures ValidateCreateValidator(
      CreateRow("a", "b", "c", "d", "e", Commission1, Some(1), valAddr1, None, CoinPos, blsPk))
      == Failure(EmptyValidatorPubKey)
  {
  }

  lemma CreateEmptyBond(valAddr1: Address, pk1: PubKey, blsPk: seq<bv8>)
    requires Fixtures(valAddr1, blsPk)
    ensures ValidateCreateValidator(
      CreateRow("a", "b", "c", "d", "e", Commission2, Some(1), valAddr1, Some(pk1), CoinZero, blsPk))
      == Failure(InvalidAmount)
  {
  }

  lemma CreateNilBond(valAddr1: Address, pk1: PubKey, blsPk: seq<bv8>)
    requires Fixtures(valAddr1, blsPk)
    ensures ValidateCreateValidator(
      CreateRow("a", "b", "c", "d", "e", Commission2, Some(1), valAddr1, Some(pk1), NilCoin, blsPk))
      == Failure(InvalidAmount)
  {
  }

  lemma CreateZeroMinSelfDelegation(valAddr1: Address, pk1: PubKey, blsPk: seq<bv8>)
    requires Fixtures(valAddr1, blsPk)
    ensures ValidateCreateValidator(
      CreateRow("a", "b", "c", "d", "e", Commission1, Some(0), valAddr1, Some(pk1), CoinPos, blsPk))
      == Failure(InvalidMinSelfDelegation)
  {
  }

  lemma CreateNegativeMinSelfDelegation(valAddr1: Address, pk1: PubKey, blsPk: seq<bv8>)
    requires Fixtures(valAddr1, blsPk)
    ensures ValidateCreateValidator(
      CreateRow("a", "b", "c", "d", "e", Commission1, Some(-1), valAddr1, Some(pk1), CoinPos, blsPk))
      == Failure(InvalidMinSelfDelegation)
  {
  }

  lemma CreateDelegationBelowMinSelfDelegation(valAddr1: Address, pk1: PubKey, blsPk: seq<bv8>)
    requires Fixtures(valAddr1, blsPk)
    ensures ValidateCreateValidator(
      CreateRow("a", "b", "c", "d", "e", Commission1, Some(1000 + 1), valAddr1, Some(pk1), CoinPos, blsPk))
      == Failure(SelfDelegationBelowMinimum)
  {
  }

  /** The "empty description" row also carries the out-of-range commission;
      each of the two defects rejects the message on its own. */
  lemma CreateEachDefectRejectsAlone(valAddr1: Address, pk1: PubKey, blsPk: seq<bv8>)
    requires Fixtures(valAddr1, blsPk)
    ensures ValidateCreateValidator(
      CreateRow("", "", "", "", "", Commission1, Some(1), valAddr1, Some(pk1), CoinPos, blsPk))
      == Failure(EmptyDescription)
    ensures ValidateCreateValidator(
      CreateRow("a", "b", "c", "d", "e", Commission2, Some(1), valAddr1, Some(pk1), CoinPos, blsPk))
      == Failure(InvalidCommission(Commission.MaxRateAboveOne))
  {
  }

  // ---- TestMsgEditValidator --------------------------------------------------

  /** The message one row builds: a new rate of zero and the row's minimum
      self delegation, both present. */
  function EditRow(moniker: string, identity: string, website: string, securityContact: string,
                   details: string, validatorAddr: Address, minSelfDelegation: MathInt,
                   blsPk: seq<bv8>): MsgEditValidator
  {
    NewMsgEditValidator(
      validatorAddr, NewDescription(moniker, identity, website, securityContact, details),
      Some(0), Some(minSelfDelegation), validatorAddr, validatorAddr, Hex.Encode(blsPk))
  }

  lemma EditBasicGood(valAddr1: Address, blsPk: seq<bv8>)
    requires |valAddr1| > 0
    ensures ValidateEditValidator(EditRow("a", "b", "c", "d", "e", valAddr1, Some(1), blsPk)).Success?
  {
  }

  lemma EditPartialDescription(valAddr1: Address, blsPk: seq<bv8>)
    requires |valAddr1| > 0
    ensures ValidateEditValidator(EditRow("", "", "c", "", "", valAddr1, Some(1), blsPk)).Success?
  {
  }

  lemma EditEmptyDescription(valAddr1: Address, blsPk: seq<bv8>)
    requires |valAddr1| > 0
    ensures ValidateEditValidator(EditRow("", "", "", "", "", valAddr1, Some(1), blsPk))
      == Failure(EmptyDescription)
  {
  }

  lemma EditEmptyAddress(blsPk: seq<bv8>)
    ensures ValidateEditValidator(EditRow("a", "b", "c", "d", "e", EmptyAddr, Some(1), blsPk))
      == Failure(InvalidAddress(ValidatorRole))
  {
  }

  lemma EditNilInt(blsPk: seq<bv8>)
    ensures ValidateEditValidator(EditRow("a", "b", "c", "d", "e", EmptyAddr, None, blsPk)).Failure?
  {
  }

  // ---- TestMsgDelegate -------------------------------------------------------

  lemma DelegateRows(valAddr1: Address, valAddr2: Address)
    requires |valAddr1| > 0 && |valAddr2| > 0
    ensures ValidateDelegate(MsgDelegate(valAddr1, valAddr2, CoinPos)).Success?
    ensures ValidateDelegate(MsgDelegate(valAddr1, valAddr1, CoinPos)).Success?
    ensures ValidateDelegate(MsgDelegate(EmptyAddr, valAddr1, CoinPos)).Failure?
    ensures ValidateDelegate(MsgDelegate(valAddr1, EmptyAddr, CoinPos)).Failure?
    ensures ValidateDelegate(MsgDelegate(valAddr1, valAddr2, CoinZero)) == Failure(InvalidAmount)
    ensures ValidateDelegate(MsgDelegate(valAddr1, valAddr2, NilCoin)) == Failure(InvalidAmount)
  {
  }

  // ---- TestMsgBeginRedelegate ------------------------------------------------

  lemma BeginRedelegateRows(valAddr1: Address, valAddr2: Address, valAddr3: Address)
    requires |valAddr1| > 0 && |valAddr2| > 0 && |valAddr3| > 0
    ensures ValidateBeginRedelegate(MsgBeginRedelegate(valAddr1, valAddr2, valAddr3, CoinOne)).Success?
    ensures ValidateBeginRedelegate(MsgBeginRedelegate(valAddr1, valAddr2, valAddr3, CoinZero))
      == Failure(InvalidAmount)
    ensures ValidateBeginRedelegate(MsgBeginRedelegate(valAddr1, valAddr2, valAddr3, NilCoin))
      == Failure(InvalidAmount)
    ensures ValidateBeginRedelegate(MsgBeginRedelegate(EmptyAddr, valAddr1, valAddr3, CoinOne)).Failure?
    ensures ValidateBeginRedelegate(MsgBeginRedelegate(valAddr1, EmptyAddr, valAddr3, CoinOne)).Failure?
    ensures ValidateBeginRedelegate(MsgBeginRedelegate(valAddr1, valAddr2, EmptyAddr, CoinOne)).Failure?
  {
  }

  // ---- TestMsgUndelegate -----------------------------------------------------

  lemma UndelegateRows(valAddr1: Address, valAddr2: Address)
    requires |valAddr1| > 0 && |valAddr2| > 0
    ensures ValidateUndelegate(MsgUndelegate(valAddr1, valAddr2, CoinOne)).Success?
    ensures ValidateUndelegate(MsgUndelegate(valAddr1, valAddr2, CoinZero)) == Failure(InvalidAmount)
    ensures ValidateUndelegate(MsgUndelegate(valAddr1, valAddr2, NilCoin)) == Failure(InvalidAmount)
    ensures ValidateUndelegate(MsgUndelegate(EmptyAddr, valAddr1, CoinOne)).Failure?
    ensures ValidateUndelegate(MsgUndelegate(valAddr1, EmptyAddr, CoinOne)).Failure?
  {
  }

  // ---- TestMsgUpdateParams, TestMsgUpdateParamsValidateBasic -----------------

  lemma UpdateParamsSignersAreGov()
    ensures UpdateParamsSigners(MsgUpdateParams(GovAuthority, StakingParams.DefaultParams()))
      == [GovModuleAddress]
  {
  }

  /** `sub` occurs somewhere in `s`, as `strings.Contains` tests. */
  predicate Contains(s: string, sub: string) {
    exists i :: 0 <= i <= |s| && sub <= s[i..]
  }

  lemma PrefixContained(s: string, sub: string)
    requires sub <= s
    ensures Contains(s, sub)
  {
    assert s[0..] == s;
  }

  /** The parameters the failing rows start from: three weeks of unbonding,
      default counts and commission, and the denomination "denom". */
  function RowParams(): StakingParams.Params {
    StakingParams.Params(StakingParams.Hour * 24 * 7 * 3, StakingParams.DefaultMaxEntries,
                         StakingParams.DefaultMaxValidators, StakingParams.DefaultHistoricalEntries,
                         StakingParams.DefaultMinCommissionRate, "denom")
  }

  /** A row expecting failure: the message is refused with a text containing
      `expected`. */
  predicate FailsWith(m: MsgUpdateParams, expected: string) {
    var r := ValidateUpdateParams(m);
    r.Failure? && (r.error.InvalidAuthority? || r.error.InvalidParams?)
    && Contains(UpdateParamsErrorText(r.error), expected)
  }

  lemma UpdateParamsValidMsg()
    ensures ValidateUpdateParams(MsgUpdateParams(GovAuthority, StakingParams.DefaultParams())).Success?
  {
  }

  lemma UpdateParamsNegativeUnbondingTime()
    ensures FailsWith(
      MsgUpdateParams(GovAuthority, RowParams().(unbondingTime := StakingParams.Hour * 24 * 7 * 3 * -1)),
      "unbonding time must be positive:")
  {
    var t := "unbonding time must be positive:";
    PrefixContained(t, t);
  }

  lemma UpdateParamsZeroMaxValidators()
    ensures FailsWith(MsgUpdateParams(GovAuthority, RowParams().(maxValidators := 0)),
                      "max validators must be positive:")
  {
    var t := "max validators must be positive:";
    PrefixContained(t, t);
  }

  lemma UpdateParamsZeroMaxEntries()
    ensures FailsWith(MsgUpdateParams(GovAuthority, RowParams().(maxEntries := 0)),
                      "max entries must be positive:")
  {
    var t := "max entries must be positive:";
    PrefixContained(t, t);
  }

  lemma UpdateParamsNegativeCommissionRate()
    ensures FailsWith(MsgUpdateParams(GovAuthority, RowParams().(minCommissionRate := NewDec(-1))),
                      "minimum commission rate cannot be negative:")
  {
    var t := "minimum commission rate cannot be negative:";
    PrefixContained(t, t);
  }

  lemma UpdateParamsCommissionRateAboveOne()
    ensures FailsWith(MsgUpdateParams(GovAuthority, RowParams().(minCommissionRate := NewDec(2))),
                      "minimum commission rate cannot be greater than 100")
  {
    PrefixContained("minimum commission rate cannot be greater than 100%:",
                    "minimum commission rate cannot be greater than 100");
  }

  lemma UpdateParamsBlankBondDenom()
    ensures FailsWith(MsgUpdateParams(GovAuthority, RowParams().(bondDenom := "")),
                      "bond denom cannot be blank")
  {
    var t := "bond denom cannot be blank";
    PrefixContained(t, t);
  }

  lemma UpdateParamsInvalidAuthority()
    ensures FailsWith(MsgUpdateParams("invalid", RowParams()), "invalid authority address")
  {
    var t := "invalid authority address";
    PrefixContained(t, t);
  }
}

=== FILE: msgs.dfy ===
/** The six transaction messages of the staking module, their constructors,
    their stateless admission checks (`ValidateBasic`) and the signer rule of
    `MsgUpdateParams`. */
module Msgs {
  import opened Wrappers
  import opened Values
  import Commission
  import StakingParams

  /** The role an address plays in a message, named in address errors. */
  datatype Role =
    | ValidatorRole
    | DelegatorRole
    | SecondaryOwnerRole
    | RewardCollectorRole
    | RelayerRole
    | SourceValidatorRole
    | DestinationValidatorRole

  /** Why a message was refused admission. */
  datatype ValidationError =
    | InvalidAddress(role: Role)
    | EmptyValidatorPubKey
    | InvalidAmount
    | EmptyDescription
    | InvalidCommission(commission: Commission.CommissionError)
    | InvalidMinSelfDelegation
    | SelfDelegationBelowMinimum
    | InvalidBlsKey
    | CommissionRateOutOfRange
    | InvalidAuthority
    | InvalidParams(params: StakingParams.ParamsError)

  // ---- MsgCreateValidator ----------------------------------------------------

  datatype MsgCreateValidator = MsgCreateValidator(
    description: Description,
    commission: Commission.CommissionRates,
    minSelfDelegation: MathInt,
    delegatorAddress: Address,
    validatorAddress: Address,
    pubkey: Option<PubKey>,
    value: Coin,
    secondaryOwnerAddress: Address,
    rewardCollectorAddress: Address,
    relayerAddress: Address,
    blsKey: string)

  /** `NewMsgCreateValidator`: records its arguments; it rejects nothing, so
      every message, valid or not, is constructed and judged later. */
  function NewMsgCreateValidator(
    validatorAddress: Address, pubkey: Option<PubKey>, selfDelegation: Coin,
    description: Description, commission: Commission.CommissionRates, minSelfDelegation: MathInt,
    delegatorAddress: Address, secondaryOwnerAddress: Address,
    rewardCollectorAddress: Address, relayerAddress: Address, blsKey: string): (m: MsgCreateValidator)
    ensures m.validatorAddress == validatorAddress && m.delegatorAddress == delegatorAddress
    ensures m.secondaryOwnerAddress == secondaryOwnerAddress && m.rewardCollectorAddress == rewardCollectorAddress
    ensures m.relayerAddress == relayerAddress
    ensures m.pubkey == pubkey && m.value == selfDelegation && m.blsKey == blsKey
    ensures m.description == description && m.commission == commission
    ensures m.minSelfDelegation == minSelfDelegation
  {
    MsgCreateValidator(description, commission, minSelfDelegation, delegatorAddress,
                       validatorAddress, pubkey, selfDelegation, secondaryOwnerAddress,
                       rewardCollectorAddress, relayerAddress, blsKey)
  }

  /** Every rule a new validator must satisfy, as one conjunction. */
  predicate CreateValidatorAdmissible(m: MsgCreateValidator) {
    && |m.validatorAddress| > 0
    && |m.delegatorAddress| > 0
    && |m.secondaryOwnerAddress| > 0
    && |m.rewardCollectorAddress| > 0
    && |m.relayerAddress| > 0
    && m.pubkey.Some?
    && IsPositiveCoin(m.value)
    && !m.description.IsEmpty()
    && Commission.Consistent(m.commission)
    && IsPositive(m.minSelfDelegation)
    && m.minSelfDelegation.value <= m.value.amount.value
    && IsValidBlsKey(m.blsKey)
  }

  /** The rule of a `MsgCreateValidator` that `e` names is broken. */
  predicate CreateValidatorBreaks(m: MsgCreateValidator, e: ValidationError) {
    match e
    case InvalidAddress(role) =>
      || (role == ValidatorRole && |m.validatorAddress| == 0)
      || (role == DelegatorRole && |m.delegatorAddress| == 0)
      || (role == SecondaryOwnerRole && |m.secondaryOwnerAddress| == 0)
      || (role == RewardCollectorRole && |m.rewardCollectorAddress| == 0)
      || (role == RelayerRole && |m.relayerAddress| == 0)
    case EmptyValidatorPubKey => m.pubkey.None?
    case InvalidAmount => !IsPositiveCoin(m.value)
    case EmptyDescription => m.description.IsEmpty()
    case InvalidCommission(c) => Commission.Violates(m.commission, c)
    case InvalidMinSelfDelegation => !IsPositive(m.minSelfDelegation)
    case SelfDelegationBelowMinimum =>
      m.value.amount.Some? && m.minSelfDelegation.Some?
      && m.value.amount.value < m.minSelfDelegation.value
    case InvalidBlsKey => !IsValidBlsKey(m.blsKey)
    case _ => false
  }

  /** `MsgCreateValidator.ValidateBasic`. */
  function ValidateCreateValidator(m: MsgCreateValidator): (r: Result<(), ValidationError>)
    ensures r.Success? <==> CreateValidatorAdmissible(m)
    ensures r.Failure? ==> CreateValidatorBreaks(m, r.error)
  {
    if |m.validatorAddress| == 0 then Failure(InvalidAddress(ValidatorRole))
    else if |m.delegatorAddress| == 0 then Failure(InvalidAddress(DelegatorRole))
    else if |m.secondaryOwnerAddress| == 0 then Failure(InvalidAddress(SecondaryOwnerRole))
    else if |m.rewardCollectorAddress| == 0 then Failure(InvalidAddress(RewardCollectorRole))
    else if |m.relayerAddress| == 0 then Failure(InvalidAddress(RelayerRole))
    else if m.pubkey.None? then Failure(EmptyValidatorPubKey)
    else if !IsPositiveCoin(m.value) then Failure(InvalidAmount)
    else if m.description.IsEmpty() then Failure(EmptyDescription)
    else if Commission.Validate(m.commission).Failure? then
      Failure(InvalidCommission(Commission.Validate(m.commission).error))
    else if !IsPositive(m.minSelfDelegation) then Failure(InvalidMinSelfDelegation)
    else if m.value.amount.value < m.minSelfDelegation.value then Failure(SelfDelegationBelowMinimum)
    else if !IsValidBlsKey(m.blsKey) then Failure(InvalidBlsKey)
    else Success(())
  }

  // ---- MsgEditValidator ------------------------------------------------------

  /** An edit: `None` in an optional field means "leave unchanged". The
      minimum self delegation is a pointer to a `math.Int`, so it may be
      absent, or present and nil. */
  datatype MsgEditValidator = MsgEditValidator(
    description: Description,
    validatorAddress: Address,
    commissionRate: Option<Dec>,
    minSelfDelegation: Option<MathInt>,
    secondaryOwnerAddress: Address,
    rewardCollectorAddress: Address,
    blsKey: string)

  /** `NewMsgEditValidator`: records its arguments and rejects nothing. */
  function NewMsgEditValidator(
    validatorAddress: Address, description: Description, newRate: Option<Dec>,
    newMinSelfDelegation: Option<MathInt>, secondaryOwnerAddress: Address,
    rewardCollectorAddress: Address, blsKey: string): (m: MsgEditValidator)
    ensures m.validatorAddress == validatorAddress && m.description == description
    ensures m.commissionRate == newRate && m.minSelfDelegation == newMinSelfDelegation
    ensures m.secondaryOwnerAddress == secondaryOwnerAddress
    ensures m.rewardCollectorAddress == rewardCollectorAddress && m.blsKey == blsKey
  {
    MsgEditValidator(description, validatorAddress, newRate, newMinSelfDelegation,
                     secondaryOwnerAddress, rewardCollectorAddress, blsKey)
  }

  /** The rule of a `MsgEditValidator` that `e` names is broken. */
  predicate EditValidatorBreaks(m: MsgEditValidator, e: ValidationError) {
    match e
    case InvalidAddress(role) => role == ValidatorRole && |m.validatorAddress| == 0
    case EmptyDescription => m.description.IsEmpty()
    case InvalidMinSelfDelegation => m.minSelfDelegation.Some? && !IsPositive(m.minSelfDelegation.value)
    case CommissionRateOutOfRange => m.commissionRate.Some? && !(0 <= m.commissionRate.value <= OneDec)
    case _ => false
  }

  /** `MsgEditValidator.ValidateBasic`. Present optional values are checked on
      their own: there is no cross-check against the self delegation here,
      since that needs chain state. */
  function ValidateEditValidator(m: MsgEditValidator): (r: Result<(), ValidationError>)
    ensures r.Success? <==>
      && |m.validatorAddress| > 0
      && !m.description.IsEmpty()
      && (m.minSelfDelegation.Some? ==> IsPositive(m.minSelfDelegation.value))
      && (m.commissionRate.Some? ==> 0 <= m.commissionRate.value <= OneDec)
    ensures r == Failure(InvalidAddress(ValidatorRole)) <==> |m.validatorAddress| == 0
    ensures r.Failure? ==> EditValidatorBreaks(m, r.error)
  {
    if |m.validatorAddress| == 0 then Failure(InvalidAddress(ValidatorRole))
    else if m.description.IsEmpty() then Failure(EmptyDescription)
    else if m.minSelfDelegation.Some? && !IsPositive(m.minSelfDelegation.value) then
      Failure(InvalidMinSelfDelegation)
    else if m.commissionRate.Some? && (m.commissionRate.value > OneDec || m.commissionRate.value < 0) then
      Failure(CommissionRateOutOfRange)
    else Success(())
  }

  // ---- MsgDelegate, MsgUndelegate, MsgBeginRedelegate ------------------------

  datatype MsgDelegate = MsgDelegate(delegatorAddress: Address, validatorAddress: Address, amount: Coin)

  datatype MsgUndelegate = MsgUndelegate(delegatorAddress: Address, validatorAddress: Address, amount: Coin)

  datatype MsgBeginRedelegate = MsgBeginRedelegate(
    delegatorAddress: Address,
    validatorSrcAddress: Address,
    validatorDstAddress: Address,
    amount: Coin)

  /** The rule of a delegation or undelegation that `e` names is broken. */
  predicate TransferBreaks(delegator: Address, validator: Address, amount: Coin, e: ValidationError) {
    match e
    case InvalidAddress(role) =>
      || (role == DelegatorRole && |delegator| == 0)
      || (role == ValidatorRole && |validator| == 0)
    case InvalidAmount => !IsPositiveCoin(amount)
    case _ => false
  }

  /** The check shared by delegation and undelegation: both parties named
      and a positive amount. */
  function ValidateTransfer(delegator: Address, validator: Address, amount: Coin): (r: Result<(), ValidationError>)
    ensures r.Success? <==> |delegator| > 0 && |validator| > 0 && IsPositiveCoin(amount)
    ensures r == Failure(InvalidAddress(DelegatorRole)) <==> |delegator| == 0
    ensures r.Failure? ==> TransferBreaks(delegator, validator, amount, r.error)
  {
    if |delegator| == 0 then Failure(InvalidAddress(DelegatorRole))
    else if |validator| == 0 then Failure(InvalidAddress(ValidatorRole))
    else if !IsPositiveCoin(amount) then Failure(InvalidAmount)
    else Success(())
  }

  /** `MsgDelegate.ValidateBasic`; the delegator may be the validator itself. */
  function ValidateDelegate(m: MsgDelegate): (r: Result<(), ValidationError>)
    ensures r.Success? <==> |m.delegatorAddress| > 0 && |m.validatorAddress| > 0 && IsPositiveCoin(m.amount)
    ensures r.Failure? ==> TransferBreaks(m.delegatorAddress, m.validatorAddress, m.amount, r.error)
  {
    ValidateTransfer(m.delegatorAddress, m.validatorAddress, m.amount)
  }

  /** `MsgUndelegate.ValidateBasic`. */
  function ValidateUndelegate(m: MsgUndelegate): (r: Result<(), ValidationError>)
    ensures r.Success? <==> |m.delegatorAddress| > 0 && |m.validatorAddress| > 0 && IsPositiveCoin(m.amount)
    ensures r.Failure? ==> TransferBreaks(m.delegatorAddress, m.validatorAddress, m.amount, r.error)
  {
    ValidateTransfer(m.delegatorAddress, m.validatorAddress, m.amount)
  }

  /** The rule of a `MsgBeginRedelegate` that `e` names is broken. */
  predicate BeginRedelegateBreaks(m: MsgBeginRedelegate, e: ValidationError) {
    match e
    case InvalidAddress(role) =>
      || (role == DelegatorRole && |m.delegatorAddress| == 0)
      || (role == SourceValidatorRole && |m.validatorSrcAddress| == 0)
      || (role == DestinationValidatorRole && |m.validatorDstAddress| == 0)
    case InvalidAmount => !IsPositiveCoin(m.amount)
    case _ => false
  }

  /** `MsgBeginRedelegate.ValidateBasic`; source and destination may coincide. */
  function ValidateBeginRedelegate(m: MsgBeginRedelegate): (r: Result<(), ValidationError>)
    ensures r.Success? <==>
      && |m.delegatorAddress| > 0
      && |m.validatorSrcAddress| > 0
      && |m.validatorDstAddress| > 0
      && IsPositiveCoin(m.amount)
    ensures r == Failure(InvalidAddress(DelegatorRole)) <==> |m.delegatorAddress| == 0
    ensures r.Failure? ==> BeginRedelegateBreaks(m, r.error)
  {
    if |m.delegatorAddress| == 0 then Failure(InvalidAddress(DelegatorRole))
    else if |m.validatorSrcAddress| == 0 then Failure(InvalidAddress(SourceValidatorRole))
    else if |m.validatorDstAddress| == 0 then Failure(InvalidAddress(DestinationValidatorRole))
    else if !IsPositiveCoin(m.amount) then Failure(InvalidAmount)
    else Success(())
  }

  // ---- MsgUpdateParams -------------------------------------------------------

  /** The governance module account. Its bytes are a hash of the module name;
      this model fixes a 20-byte stand-in and never looks inside it. */
  const GovModuleAddress: Address :=
    [0x01, 0x02, 0x03, 0x04, 0x05, 0x06, 0x07, 0x08, 0x09, 0x0a,
     0x0b, 0x0c, 0x0d, 0x0e, 0x0f, 0x10, 0x11, 0x12, 0x13, 0x14]

  /** The governance module's authority string. Like `GovModuleAddress` it is
      a stand-in, and the model does not relate the two constants. */
  const GovAuthority: string := "gov-module-authority"

  datatype MsgUpdateParams = MsgUpdateParams(authority: string, params: StakingParams.Params)

  /** `MsgUpdateParams.GetSigners`: the governance module, whatever the
      `authority` field holds. */
  function UpdateParamsSigners(m: MsgUpdateParams): (signers: seq<Address>)
    ensures |signers| == 1
    ensures forall a :: a in signers <==> a == GovModuleAddress
  {
    [GovModuleAddress]
  }

  /** `MsgUpdateParams.ValidateBasic`: the authority must be the governance
      module, and then the parameters must pass their own check. */
  function ValidateUpdateParams(m: MsgUpdateParams): (r: Result<(), ValidationError>)
    ensures r.Success? <==> m.authority == GovAuthority && StakingParams.WellFormed(m.params)
    ensures m.authority != GovAuthority ==> r == Failure(InvalidAuthority)
    ensures m.authority == GovAuthority && r.Failure? ==>
      r.error.InvalidParams? && StakingParams.Violates(m.params, r.error.params)
  {
    if m.authority != GovAuthority then Failure(InvalidAuthority)
    else match StakingParams.Validate(m.params)
      case Failure(e) => Failure(InvalidParams(e))
      case Success(_) => Success(())
  }

  /** The text a caller sees for a rejected `MsgUpdateParams`. */
  function UpdateParamsErrorText(e: ValidationError): (text: string)
    requires e.InvalidAuthority? || e.InvalidParams?
    ensures e.InvalidAuthority? ==> "invalid authority address" <= text
    ensures e.InvalidParams? ==> StakingParams.Phrase(e.params) <= text
  {
    if e.InvalidAuthority? then "invalid authority address"
    else StakingParams.Message(e.params)
  }
}

=== FILE: params.dfy ===
/** The staking module's global parameters, their defaults and their check. */
module StakingParams {
  import opened Wrappers
  import opened Values

  type uint32 = x: int | 0 <= x < 0x1_0000_0000

  /** A `time.Duration`: a signed 64-bit count of nanoseconds. */
  type Duration = x: int | -0x8000_0000_0000_0000 <= x < 0x8000_0000_0000_0000

  const Second: Duration := 1_000_000_000
  const Hour: Duration := 3600 * Second

  datatype Params = Params(
    unbondingTime: Duration,
    maxEntries: uint32,
    maxValidators: uint32,
    historicalEntries: uint32,
    minCommissionRate: Dec,
    bondDenom: string)

  /** Three weeks. */
  const DefaultUnbondingTime: Duration := Hour * 24 * 7 * 3
  const DefaultMaxValidators: uint32 := 100
  const DefaultMaxEntries: uint32 := 7
  const DefaultHistoricalEntries: uint32 := 10000
  const DefaultMinCommissionRate: Dec := 0

  /** The parameters in force when none are supplied: valid, bonded in the
      default denomination. */
  function DefaultParams(): (p: Params)
    ensures WellFormed(p)
    ensures p.bondDenom == DefaultBondDenom && p.minCommissionRate == 0
  {
    Params(DefaultUnbondingTime, DefaultMaxEntries, DefaultMaxValidators,
           DefaultHistoricalEntries, DefaultMinCommissionRate, DefaultBondDenom)
  }

  /** Which parameter clause failed; listed in the order they are checked. */
  datatype ParamsError =
    | NonPositiveUnbondingTime
    | ZeroMaxValidators
    | ZeroMaxEntries
    | NegativeMinCommissionRate
    | MinCommissionRateAboveOne
    | BlankBondDenom
    | InvalidBondDenom

  /** The position of a clause in the checking order. */
  function Rank(e: ParamsError): nat {
    match e
    case NonPositiveUnbondingTime => 0
    case ZeroMaxValidators => 1
    case ZeroMaxEntries => 2
    case NegativeMinCommissionRate => 3
    case MinCommissionRateAboveOne => 4
    case BlankBondDenom => 5
    case InvalidBondDenom => 6
  }

  /** `p` breaks the clause `e` reports. */
  predicate Violates(p: Params, e: ParamsError) {
    match e
    case NonPositiveUnbondingTime => p.unbondingTime <= 0
    case ZeroMaxValidators => p.maxValidators == 0
    case ZeroMaxEntries => p.maxEntries == 0
    case NegativeMinCommissionRate => p.minCommissionRate < 0
    case MinCommissionRateAboveOne => p.minCommissionRate > OneDec
    case BlankBondDenom => IsBlank(p.bondDenom)
    case InvalidBondDenom => !ValidDenom(p.bondDenom)
  }

  /** The parameter invariant: a positive unbonding time, at least one
      validator slot and one entry, a minimum commission in [0, 1] and a
      well-formed bond denomination. The historical-entries count is free. */
  predicate WellFormed(p: Params) {
    && p.unbondingTime > 0
    && p.maxValidators > 0
    && p.maxEntries > 0
    && 0 <= p.minCommissionRate <= OneDec
    && ValidDenom(p.bondDenom)
  }

  /** `Params.Validate`: reports the first clause, in checking order, that
      the parameters break. */
  function Validate(p: Params): (r: Result<(), ParamsError>)
    ensures r.Success? <==> WellFormed(p)
    ensures r.Failure? ==> Violates(p, r.error)
    ensures r.Failure? ==> forall e :: Rank(e) < Rank(r.error) ==> !Violates(p, e)
  {
    if p.unbondingTime <= 0 then Failure(NonPositiveUnbondingTime)
    else if p.maxValidators == 0 then Failure(ZeroMaxValidators)
    else if p.maxEntries == 0 then Failure(ZeroMaxEntries)
    else if p.minCommissionRate < 0 then Failure(NegativeMinCommissionRate)
    else if p.minCommissionRate > OneDec then Failure(MinCommissionRateAboveOne)
    else if IsBlank(p.bondDenom) then Failure(BlankBondDenom)
    else if !ValidDenom(p.bondDenom) then Failure(InvalidBondDenom)
    else Success(())
  }

  /** The error text for a failed clause, up to the colon after which the
      offending value is printed. */
  function Message(e: ParamsError): (text: string)
    ensures Phrase(e) <= text
  {
    match e
    case NonPositiveUnbondingTime => "unbonding time must be positive:"
    case ZeroMaxValidators => "max validators must be positive:"
    case ZeroMaxEntries => "max entries must be positive:"
    case NegativeMinCommissionRate => "minimum commission rate cannot be negative:"
    case MinCommissionRateAboveOne => "minimum commission rate cannot be greater than 100%:"
    case BlankBondDenom => "bond denom cannot be blank"
    case InvalidBondDenom => "invalid denom:"
  }

  /** The words that identify each clause in its error text: the expected
      error strings of the params rows of x/staking/types/msg_test.go
      (lines 267-347). Each is the clause's text itself, except that the
      value-bound text stops before "%:". */
  function Phrase(e: ParamsError): string {
    match e
    case NonPositiveUnbondingTime => "unbonding time must be positive:"
    case ZeroMaxValidators => "max validators must be positive:"
    case ZeroMaxEntries => "max entries must be positive:"
    case NegativeMinCommissionRate => "minimum commission rate cannot be negative:"
    case MinCommissionRateAboveOne => "minimum commission rate cannot be greater than 100"
    case BlankBondDenom => "bond denom cannot be blank"
    case InvalidBondDenom => "invalid denom:"
  }

  /** Each clause has its own error text, so the text identifies the
      clause that failed. */
  lemma MessagesDistinct(e1: ParamsError, e2: ParamsError)
    requires e1 != e2
    ensures Message(e1) != Message(e2)
  {
  }

  /** The defaults satisfy the parameter invariant. */
  lemma DefaultParamsValid()
    ensures Validate(DefaultParams()) == Success(())
  {
  }
}

=== FILE: values.dfy ===
/** The value objects the staking messages carry: addresses, public keys, the
    SDK's nilable integer, fixed-point decimals, coins and validator
    descriptions. */
module Values {
  import opened Wrappers
  import Hex

  /** An account or validator operator address. Only its emptiness is
      observed by the admission checks: an empty address does not parse. */
  type Address = seq<bv8>

  /** A consensus public key of some registered algorithm. */
  datatype PubKey = PubKey(algorithm: string, key: seq<bv8>)

  /** A `math.Int`: `None` is the zero value of the struct (a nil big
      integer), which is distinct from an explicit zero. */
  type MathInt = Option<int>

  predicate IsPositive(i: MathInt) {
    i.Some? && i.value > 0
  }

  /** A `LegacyDec`: a fixed-point decimal with 18 fractional digits, held as
      the scaled integer, so `OneDec` is 1.0. */
  type Dec = int

  const OneDec: Dec := 1_000_000_000_000_000_000

  /** The decimal with integer value `n` (`LegacyNewDec`). */
  function NewDec(n: int): (d: Dec)
    ensures d / OneDec == n && d % OneDec == 0
  {
    n * OneDec
  }

  // ---- Denominations -------------------------------------------------------

  predicate IsLetter(c: char) {
    'a' <= c <= 'z' || 'A' <= c <= 'Z'
  }

  /** A character allowed after the first one of a denomination. */
  predicate IsDenomChar(c: char) {
    IsLetter(c) || '0' <= c <= '9' || c == '/' || c == ':' || c == '.' || c == '_' || c == '-'
  }

  /** The SDK's denomination rule: a letter followed by 2 to 127 further
      letters, digits or one of `/:._-`. */
  function ValidDenom(d: string): (b: bool)
    ensures b ==> 3 <= |d| <= 128 && forall i :: 0 <= i < |d| ==> IsDenomChar(d[i])
    ensures b ==> !IsBlank(d)
  {
    && 3 <= |d| <= 128
    && IsLetter(d[0])
    && forall i :: 1 <= i < |d| ==> IsDenomChar(d[i])
  }

  /** The white-space characters of Latin-1 that Go's `strings.TrimSpace`
      removes. */
  predicate IsSpace(c: char) {
    c == ' ' || c == '\t' || c == '\n' || c == '\r' || c == '\U{000B}' || c == '\U{000C}'
    || c == '\U{0085}' || c == '\U{00A0}'
  }

  /** Go's `strings.TrimLeft` with `unicode.IsSpace`: drops leading white
      space. */
  function TrimLeft(s: string): string
    decreases |s|
  {
    if |s| > 0 && IsSpace(s[0]) then TrimLeft(s[1..]) else s
  }

  /** Drops trailing white space. */
  function TrimRight(s: string): string
    decreases |s|
  {
    if |s| > 0 && IsSpace(s[|s| - 1]) then TrimRight(s[..|s| - 1]) else s
  }

  /** Go's `strings.TrimSpace`. */
  function TrimSpace(s: string): string {
    TrimRight(TrimLeft(s))
  }

  /** A string is blank, `strings.TrimSpace(s) == ""`, exactly when every
      character of it is white space. */
  function IsBlank(s: string): (b: bool)
    ensures b <==> TrimSpace(s) == ""
  {
    AllSpaceIffTrimsEmpty(s);
    forall i :: 0 <= i < |s| ==> IsSpace(s[i])
  }

  lemma {:induction false} TrimLeftEmpty(s: string)
    ensures TrimLeft(s) == "" <==> forall i :: 0 <= i < |s| ==> IsSpace(s[i])
    decreases |s|
  {
    if |s| > 0 && IsSpace(s[0]) {
      TrimLeftEmpty(s[1..]);
      assert forall i :: 1 <= i < |s| ==> s[i] == s[1..][i - 1];
    }
  }

  lemma {:induction false} TrimLeftHead(s: string)
    ensures TrimLeft(s) == "" || !IsSpace(TrimLeft(s)[0])
    decreases |s|
  {
    if |s| > 0 && IsSpace(s[0]) {
      TrimLeftHead(s[1..]);
    }
  }

  lemma {:induction false} TrimRightKeepsHead(t: string)
    requires |t| > 0 && !IsSpace(t[0])
    ensures TrimRight(t) != ""
    decreases |t|
  {
    if IsSpace(t[|t| - 1]) {
      TrimRightKeepsHead(t[..|t| - 1]);
    }
  }

  lemma AllSpaceIffTrimsEmpty(s: string)
    ensures (forall i :: 0 <= i < |s| ==> IsSpace(s[i])) <==> TrimSpace(s) == ""
  {
    TrimLeftEmpty(s);
    TrimLeftHead(s);
    if TrimLeft(s) != "" {
      TrimRightKeepsHead(TrimLeft(s));
    }
  }

  const DefaultBondDenom: string := "stake"

  lemma DefaultBondDenomValid()
    ensures ValidDenom(DefaultBondDenom)
  {
  }

  // ---- Coins ---------------------------------------------------------------

  /** A `sdk.Coin`. `Coin{}` has a blank denomination and a nil amount. */
  datatype Coin = Coin(denom: string, amount: MathInt)

  const NilCoin: Coin := Coin("", None)

  /** `sdk.NewInt64Coin`. The SDK panics on a malformed denomination or a
      negative amount, so both are demanded of the caller; what it builds is
      always a valid coin, and an amount exactly when `n` is positive. */
  function NewInt64Coin(denom: string, n: int): (c: Coin)
    requires 0 <= n < 0x8000_0000_0000_0000
    requires ValidDenom(denom)
    ensures c.denom == denom && c.amount == Some(n)
    ensures IsValidCoin(c)
    ensures IsPositiveCoin(c) <==> 0 < n
  {
    Coin(denom, Some(n))
  }

  /** `Coin.IsValid`: a well-formed denomination and a non-nil, non-negative
      amount. */
  function IsValidCoin(c: Coin): (b: bool)
    ensures b ==> c.amount.Some? && c.amount.value >= 0
    ensures c.amount.None? || c.denom == "" ==> !b
    ensures ValidDenom(c.denom) && c.amount == Some(0) ==> b
  {
    ValidDenom(c.denom) && c.amount.Some? && c.amount.value >= 0
  }

  /** The amount test every staking transfer applies: a valid coin whose
      amount is strictly positive. */
  function IsPositiveCoin(c: Coin): (b: bool)
    ensures b <==> ValidDenom(c.denom) && c.amount.Some? && c.amount.value > 0
    ensures c.amount == None ==> !b
    ensures c.amount == Some(0) ==> !b
  {
    IsValidCoin(c) && IsPositive(c.amount)
  }

  // ---- Descriptions ----------------------------------------------------------

  /** A validator's public metadata. */
  datatype Description = Description(
    moniker: string,
    identity: string,
    website: string,
    securityContact: string,
    details: string)
  {
    /** Equal to `Description{}`: every field is the empty string. */
    predicate IsEmpty() {
      moniker == "" && identity == "" && website == "" && securityContact == "" && details == ""
    }
  }

  function NewDescription(moniker: string, identity: string, website: string,
                          securityContact: string, details: string): Description
  {
    Description(moniker, identity, website, securityContact, details)
  }

  // ---- BLS public keys -------------------------------------------------------

  /** Length in bytes of a compressed BLS12-381 public key. */
  const BlsPubKeyLength: nat := 48

  /** The hex-encoded BLS key a validator registers: it must decode to
      exactly `BlsPubKeyLength` bytes. */
  function IsValidBlsKey(s: string): (b: bool)
    ensures b <==> |s| == 2 * BlsPubKeyLength && forall i :: 0 <= i < |s| ==> Hex.IsDigit(s[i])
  {
    var d := Hex.Decode(s);
    d.Some? && |d.value| == BlsPubKeyLength
  }

  /** Hex-encoding the marshalled bytes of any BLS public key yields a key
      string the checks accept. */
  lemma EncodedBlsKeyValid(key: seq<bv8>)
    requires |key| == BlsPubKeyLength
    ensures IsValidBlsKey(Hex.Encode(key))
  {
  }
}

=== FILE: wrappers.dfy ===
/** Optional values and results with an error value, used for the nil states of
    the SDK's value types and for the verdicts of the admission checks. */
module Wrappers {

  /** A value that may be absent: `None` stands for Go's nil. */
  datatype Option<+T> = None | Some(value: T)

  /** The outcome of a check: `Success` carries the value, `Failure` the reason. */
  datatype Result<+R, +E> = Success(value: R) | Failure(error: E)
}
